=== FILE: README.md ===
# Lead access rules of a small CRM, modelled in Dafny

The CRM lets admins and salespeople keep "lead" records (prospective
customers) behind a Next.js API backed by MongoDB. This project models the
rules around those records, without the web framework and the database
driver:

- the role-scoped lead list of `GET /api/leads`: a salesperson sees only the
  leads they created, an admin sees all; an optional exact status filter and
  an optional case-insensitive search over name, email and phone; newest
  first; an offset page with `totalPages = ceil(total / limit)`;
- the create of `POST /api/leads`, whose owner is always the caller;
- the lead and user schemas: required fields, the status and role enums with
  their defaults, the unique user email, the password hidden from queries;
- the admin-only statistics of `GET /api/dashboard/stats`;
- sign-in (`authorize`) and the `jwt` and `session` callbacks that carry the
  user's id and role into the session the routes read;
- the browser side: how `getLeads` builds its query parameters (and that the
  server reads them back unchanged), the not-ok-response rule of the four API
  calls, the lead form's validator, reset values and create-or-update choice,
  and the salesperson dashboard's paging and filter state.

The database is an in-memory sequence (`seq<Lead>`, `seq<StoredUser>`); the
clock, new ids, bcrypt's comparison, zod's email check, the network response
and store failures are parameters.

Files, one module each: `wrappers.dfy` (Option, Result), `domain.dfy`
(statuses, roles, the lead record, the session identity), `text.dfy`
(case-insensitive search, `String`/`parseInt` of integers), `url_params.dfy`
(`URLSearchParams`), `lead_model.dfy`, `user_model.dfy`, `leads_route.dfy`,
`stats_route.dfy`, `client_api.dfy`, `auth.dfy`, `lead_form.dfy`,
`dashboard.dfy`.

Behaviour of the code worth noting:

- the statistics route answers an anonymous caller with 403, as it does a
  signed-in salesperson;
- the search is a `$regex` match, modelled as a case-insensitive substring
  test;
- `authorize` throws when the email or password is missing, and returns null
  for an unknown email, a wrong password or a store failure;
- a validation error is reported with the list of failing schema paths.

## Model

| member | source | states |
|---|---|---|
| `Domain.ParseStatus` | src/models/Lead.ts:20-25 | a string is accepted as a status exactly when it is one of the five names, and then it names that status |
| `Domain.ParseRole` | src/models/User.ts:14 | a string is accepted as a role exactly when it is `admin` or `salesperson` |
| `Text.ExactMatchIsFound` | src/app/api/leads/route.ts:42-44 | every exact occurrence of the pattern is found by the case-insensitive search |
| `Text.CaseOfPatternIrrelevant` | src/app/api/leads/route.ts:42-44 | a pattern and its lower-case form find the same texts, so the case of the search text does not matter |
| `Text.ParseIntOfIntToString` | src/app/api/leads/route.ts:24-25 | `parseInt` reads back the plain decimal form `String` gives an integer (a sign and digits; exponent forms are outside the model) |
| `Text.ParseIntOfDefaults` | src/app/api/leads/route.ts:24-25 | the fallback strings `'1'` and `'10'` parse as 1 and 10 |
| `UrlParams.Lookup` | src/app/api/leads/route.ts:23-27 | `get` is absent exactly when no pair has the key, and otherwise returns the value of the first pair with the key |
| `UrlParams.SearchParams.constructor` | src/lib/api.ts:30-33 | a new parameter list holds page then limit |
| `UrlParams.SearchParams.Append` | src/lib/api.ts:35-41 | append adds exactly one pair at the end and keeps the others |
| `LeadModel.ValidationErrors` | src/models/Lead.ts:14-31 | the reported paths are exactly the paths whose validator fails |
| `LeadModel.StatusOf` | src/models/Lead.ts:20-25 | an absent status becomes New; a given one is stored as named |
| `LeadModel.Create` | src/models/Lead.ts:14-32 | a document is stored iff name, email, phone are non-empty, a given status is one of the five and the owner is given; a rejection lists exactly the failing paths; the stored lead copies the fields, defaults the status to New and keeps the optional fields; its creation time is the one the document carries, else the store's clock, and its update time equals it |
| `UserModel.UserErrors` | src/models/User.ts:10-14 | the reported paths are exactly the required fields that are missing and a role outside the enum |
| `UserModel.InsertUser` | src/models/User.ts:10-15 | a valid user with an unused email is appended with role salesperson by default; an invalid one is rejected with its failing paths; a taken email is rejected; the insert keeps emails unique |
| `UserModel.ViewOf` | src/models/User.ts:13 | a query result carries the password exactly when it was selected |
| `UserModel.FindByEmail` | src/lib/auth.ts:29 | a user is found exactly when one has the email, and the result is that user's view |
| `UserModel.FindByEmailIsTheOwner` | src/models/User.ts:12 | with the unique index, the user found for an email is the user who has it |
| `LeadsRoute.QueryFor` | src/app/api/leads/route.ts:29-46 | the owner constraint is present exactly for a salesperson; the query selects exactly the leads the caller may see that pass the non-empty status and search filters |
| `LeadsRoute.BuildQuery` | src/app/api/leads/route.ts:29-46 | the step-by-step construction yields that query, so it selects exactly those leads |
| `LeadsRoute.Filter` | src/app/api/leads/route.ts:50 | the result holds exactly the stored leads that match, each as many times as it is stored, so its length is the count `countDocuments` gives |
| `LeadsRoute.SortNewestFirst` | src/app/api/leads/route.ts:54 | the result is ordered by creation time, newest first, and is a permutation of the input |
| `LeadsRoute.Window` | src/app/api/leads/route.ts:52-53 | at most `limit` consecutive leads starting at the skip position; empty past the end |
| `LeadsRoute.CeilDiv` | src/app/api/leads/route.ts:60 | the page count is the fewest pages of `limit` that hold `total` |
| `LeadsRoute.List` | src/app/api/leads/route.ts:50-62 | the page is the `limit` leads after skipping `(page - 1) * limit` of the newest-first filtered set; every listed lead is stored and matches; at most `limit` of them, newest first; `total` counts the whole filtered set; `totalPages` is its ceiling; a page past the last is empty; `currentPage` is the requested page |
| `LeadsRoute.ListedOnSomePage` | src/app/api/leads/route.ts:50-60 | when no two matching leads share a creation time, every matching lead appears on some page between 1 and `totalPages`, whatever newest-first order the store uses for each page's request |
| `LeadsRoute.NewestFirstUnique` | src/app/api/leads/route.ts:54 | with distinct creation times there is only one newest-first order of a set of leads |
| `LeadsRoute.TiedLeadCanBeMissed` | src/app/api/leads/route.ts:52-54 | with two leads created at the same time and one lead per page, the store may order the tie differently for the two pages' requests, and then one lead is listed twice and the other never |
| `LeadsRoute.ParseListParams` | src/app/api/leads/route.ts:23-27 | a page or limit that is absent or empty becomes 1 or 10, a given one is `parseInt` of its first value; status and query are read as given |
| `LeadsRoute.HandleGet` | src/app/api/leads/route.ts:17-67 | no session gives 401 and nothing else does; a store failure gives 500; otherwise the page of the scoped query; every returned lead is stored and is one the caller may see and asked for |
| `LeadsRoute.SalespersonSeesOnlyOwnLeads` | src/app/api/leads/route.ts:31-34 | a lead listed for a salesperson was created by that salesperson |
| `LeadsRoute.AdminCountsEveryMatchingLead` | src/app/api/leads/route.ts:29-46 | for an admin, any stored lead passing the status and search filters is selected and counted in the total, whoever created it |
| `LeadsRoute.AdminSeesEveryMatchingLead` | src/app/api/leads/route.ts:29-46 | for an admin, when no two matching leads share a creation time, any stored lead passing the status and search filters is listed on some page, whoever created it and whatever newest-first order each page's request uses |
| `LeadsRoute.OwnedBy` | src/app/api/leads/route.ts:82-85 | the document sent to the store has the caller as owner and otherwise equals the body |
| `LeadsRoute.Post` | src/app/api/leads/route.ts:70-99 | 401 exactly when there is no session, leaving the store unchanged; 201 exactly when the body parses, validates with the caller as owner and the insert succeeds, and then the lead appended and returned is the one `Lead.create` builds from the body with the caller as owner (its fields, default status and timestamps as `LeadModel.Create` states); 400 exactly when an Error is thrown: a malformed body (its parse message), a validation failure (the failing paths) or a store Error (its message); 500 exactly for a non-Error throw; only a 201 changes the store |
| `LeadsRoute.PostKeepsStoreValid` | src/app/api/leads/route.ts:82-87 | a create keeps every stored lead valid |
| `LeadsRoute.AuthorshipCannotBeSpoofed` | src/app/api/leads/route.ts:81-85 | an owner claimed in the body changes nothing, for every body and store outcome: the response and store are those of the same body without it, and a created lead belongs to the caller |
| `StatsRoute.CountStatus` | src/app/api/dashboard/stats/route.ts:18-20 | a status count never exceeds the number of leads |
| `StatsRoute.StatusCountsPartition` | src/app/api/dashboard/stats/route.ts:17-20 | the five status counts add up to the total |
| `StatsRoute.Stats` | src/app/api/dashboard/stats/route.ts:8-39 | 403 exactly when the caller is not a signed-in admin (anonymous included); 500 for an admin when the store fails; otherwise the total of all leads and the In Progress, Won and Lost counts in that order, whose sum is at most the total |
| `StatsRoute.CountIsFilteredTotal` | src/app/api/dashboard/stats/route.ts:18-20 | a status count equals the total an unscoped list with that status filter reports |
| `ClientApi.BodyOf` | src/lib/api.ts:57-64 | the body the server parses carries the form's name, email, phone, company, source and notes unchanged, names its status, and has neither an owner nor a creation time |
| `ClientApi.Settle` | src/lib/api.ts:45-49 | a response that is not ok throws with the call's message; an ok one returns its body |
| `ClientApi.LeadsParams` | src/lib/api.ts:29-41 | page and limit come first, in that order; status is present iff non-empty; query is present iff non-empty |
| `ClientApi.LookupLeadsParams` | src/lib/api.ts:30-41 | reading the parameters gives the printed page and limit, and status and query exactly when non-empty |
| `ClientApi.LeadsParamsRoundTrip` | src/lib/api.ts:29-41 | the server's parse of the parameters gives back the page, the limit, and the status and query when non-empty |
| `ClientApi.BuildLeadsParams` | src/lib/api.ts:29-41 | the in-place construction with defaults page 1, limit 10, status and query empty yields those parameters |
| `ClientApi.GetLeads` | src/lib/api.ts:29-50 | GET /api/leads whose parameters the server reads as exactly the given or default page and limit, and the given status and query when non-empty (absent otherwise); throws "Failed to fetch leads" iff the response is not ok |
| `ClientApi.CreateLead` | src/lib/api.ts:57-71 | POST /api/leads with the data; throws "Failed to create lead" iff not ok |
| `ClientApi.UpdateLead` | src/lib/api.ts:79-93 | PUT /api/leads/{id} with the data; throws "Failed to update lead" iff not ok |
| `ClientApi.DeleteLead` | src/lib/api.ts:99-109 | DELETE /api/leads/{id}; throws "Failed to delete lead" iff not ok |
| `Auth.WithoutPassword` | src/lib/auth.ts:46-48 | the returned user keeps id, name, email and role, and has no password field |
| `Auth.Authorize` | src/lib/auth.ts:17-54 | throws "Invalid credentials" exactly when email or password is missing; a store failure or an unknown email gives null; a returned user is a stored user with that email whose password matched, without the password |
| `Auth.AuthorizeExactly` | src/lib/auth.ts:29-53 | with unique emails, the user with the given email signs in iff the password matches, and otherwise the result is null |
| `Auth.Token.Jwt` | src/lib/auth.ts:61-68 | with a user, the token gets the user's id, role and full name; without one it is unchanged |
| `Auth.Session.ApplyToken` | src/lib/auth.ts:69-75 | when the session has a user, it gets the token's id and role; nothing else changes |
| `Auth.Session.Identity` | src/app/api/leads/route.ts:32-33 | the identity a route reads exists exactly when the session user has id and role |
| `Auth.SignInThenRequest` | src/lib/auth.ts:17-75 | after sign-in and a later request, the session's identity exists iff authorize returned a user, and it is the id and stored role of a user whose email and password matched |
| `LeadForm.ValidateForm` | src/components/leads/LeadForm.tsx:17-24 | accepted iff the name has at least 2 characters, the email passes the email check, the phone has at least 10 and the status is one of the five; all failing checks are reported; an accepted payload has the six schema fields and no notes |
| `LeadForm.ResetValues` | src/components/leads/LeadForm.tsx:48-63 | with no lead to edit, the empty form with status New; otherwise the lead's own name, email, phone, company, source, status, notes, id and owner |
| `LeadForm.Dispatch` | src/components/leads/LeadForm.tsx:66-71 | editing sends PUT to the edited lead's id, otherwise POST; the data is the body |
| `LeadForm.LeadFormState.constructor` | src/components/leads/LeadForm.tsx:35-45 | the form starts as the empty form |
| `LeadForm.LeadFormState.Sync` | src/components/leads/LeadForm.tsx:48-63 | the values become the reset values for the lead to edit |
| `LeadForm.LeadFormState.Submit` | src/components/leads/LeadForm.tsx:81-83 | a request is sent iff the values validate, and it is the create or update for the validated payload |
| `LeadForm.FormPayloadIsStored` | src/components/leads/LeadForm.tsx:17-24 | a payload the form accepts, posted by a signed-in user, is stored with the form's name, email, phone, company, source and status, owned by that user, with no notes and the store's clock as creation time |
| `Dashboard.SelectValue` | src/components/dashboard/SalespersonDashboard.tsx:61 | an empty filter is shown as "all", any other as itself |
| `Dashboard.FilterFor` | src/components/dashboard/SalespersonDashboard.tsx:62-64 | choosing "all" clears the filter; any other choice is stored verbatim |
| `Dashboard.SelectShowsChoice` | src/components/dashboard/SalespersonDashboard.tsx:61-64 | the select shows again whatever non-empty option was chosen |
| `Dashboard.SalespersonDashboard.constructor` | src/components/dashboard/SalespersonDashboard.tsx:16-20 | page 1, empty search and filter, form closed, no lead to edit |
| `Dashboard.SalespersonDashboard.FetchArgs` | src/components/dashboard/SalespersonDashboard.tsx:22-24 | the query uses exactly the current page, search and filter, and the default limit |
| `Dashboard.SalespersonDashboard.FetchParams` | src/components/dashboard/SalespersonDashboard.tsx:22-24 | the server reads the current page, limit 10, and the filter and search when non-empty; paging is always well formed |
| `Dashboard.SalespersonDashboard.Previous` | src/components/dashboard/SalespersonDashboard.tsx:95 | page becomes the larger of page - 1 and 1; nothing else changes |
| `Dashboard.SalespersonDashboard.Next` | src/components/dashboard/SalespersonDashboard.tsx:104 | page stays when the last response's current page equals its page count (or there is no response yet), otherwise grows by one, also when the page count is 0 |
| `Dashboard.SalespersonDashboard.SelectStatus` | src/components/dashboard/SalespersonDashboard.tsx:62-65 | the filter is set from the choice and the page is not reset |
| `Dashboard.SalespersonDashboard.SetSearch` | src/components/dashboard/SalespersonDashboard.tsx:57 | the search text is set and the page is not reset |
| `Dashboard.SalespersonDashboard.HandleEdit` | src/components/dashboard/SalespersonDashboard.tsx:29-32 | the lead becomes the lead to edit and the form opens |
| `Dashboard.SalespersonDashboard.OpenNewLeadForm` | src/components/dashboard/SalespersonDashboard.tsx:34-37 | the lead to edit is cleared and the form opens |
| `Dashboard.SalespersonDashboard.SetFormOpen` | src/components/dashboard/SalespersonDashboard.tsx:19 | only the form's open flag changes |

## Left out

- The update and delete routes (`src/app/api/leads/[id]/route.ts`): their owner-or-admin check, not-found answer and partial update are not part of this model; only the client calls to them are.
- `populate` of the owner's name in list results: a listed lead carries the owner's id only.
- Regular-expression search: the search pattern is treated as literal text (the model is exact for patterns without regex metacharacters); case folding covers ASCII letters only.
- `parseInt` details: leading whitespace, `0x` prefixes and fractions are not modelled.
- `LeadsRoute.HandleGet`: a page or limit that parses to NaN or below 1 is excluded by the precondition and its answer is not modelled; for instance limit 0 makes MongoDB return every matching lead and `totalPages` serialises as null.
- `Text.ParseIntOfIntToString`: JavaScript numbers are unbounded integers here; `String` switches to exponent form from 1e21 (which `parseInt` misreads) and precision is lost beyond 2^53.
- `LeadForm.ValidateForm`: lengths are counted in characters, where zod's `min` counts UTF-16 code units.
- `LeadsRoute.ListedOnSomePage`, `LeadsRoute.AdminSeesEveryMatchingLead`: proved only when the matching leads have distinct creation times; the list sorts on `createdAt` alone, so with ties each page's request may order them differently and a lead can be skipped (`LeadsRoute.TiedLeadCanBeMissed`).
- `LeadsRoute.List`: it uses one fixed newest-first order (an insertion sort); the store may break ties in creation time differently.
- Percent-encoding of the query string: the client's parameter list is what the server reads.
- JSON type coercion, ObjectId and Date casting and Mongoose's dropping of unknown body keys: a body is already a document of the schema's fields plus an optional creation time; `null` field values are not modelled (absent is). An `_id` in the body is not modelled: the new id is a parameter.
- Leads and users created outside these routes (the seeding script) and the `timestamps` of users.
- The database connection (`connectToDB`, its connected flag); any store failure is a parameter of the route that suffers it.
- bcrypt hashing and comparison (a parameter), next-auth's token signing and its own token fields (`sub`, `email`, `picture`).
- `LeadsRoute.HandleGet`: a session whose `role` is missing is not modelled; the routes see a session user with an id and one of the two roles (`Auth.Session.Identity` yields nothing otherwise), whereas the code would treat a role-less user like an admin.
- zod's email regular expression: the email check is a parameter.
- React Query caching, refetching and `keepPreviousData`; the dialogs' open/close wiring in the lead tables; all rendering.
- The concurrency of the statistics route's `Promise.all`: the four counts are computed one after another.
- `LeadForm.ResetValues`: the edited lead's owner is kept as an id, not as the populated `{ _id, fullName }` object.

=== FILE: auth.dfy ===
/** Identity derivation (src/lib/auth.ts): the credentials check that signs a
    user in, and the two callbacks that carry the user's id and role into the
    token and from the token into the session the routes read. The user
    collection is a sequence; bcrypt's comparison is a parameter. */
module Auth {
  import opened Wrappers
  import opened Domain
  import opened UserModel

  datatype Credentials = Credentials(email: Option<string>, password: Option<string>)

  /** The user object `authorize` returns: the stored user without its password. */
  datatype PublicUser = PublicUser(id: Id, fullName: string, email: string, role: Role)

  /** `authorize`'s three ways out: it throws, it returns null, it returns a user. */
  datatype AuthOutcome = AuthThrew(message: string) | NoUser | Authorized(user: PublicUser)

  /** `const { password, ...userWithoutPassword } = user.toObject()`. */
  function WithoutPassword(v: UserView): (p: PublicUser)
    ensures p.id == v.id && p.fullName == v.fullName && p.email == v.email && p.role == v.role
  {
    PublicUser(v.id, v.fullName, v.email, v.role)
  }

  predicate CredentialsGiven(creds: Option<Credentials>)
  {
    creds.Some? && Truthy(creds.value.email) && Truthy(creds.value.password)
  }

  /** The user `u` may sign in with `password`. */
  predicate AcceptsPassword(u: StoredUser, password: string, passwordMatches: (string, string) -> bool)
  {
    passwordMatches(password, u.password)
  }

  /** `authorize(credentials)`: missing credentials throw (outside the try);
      a store failure, an unknown email or a wrong password return null;
      otherwise the user is returned without the password. */
  function Authorize(creds: Option<Credentials>, users: seq<StoredUser>,
                     passwordMatches: (string, string) -> bool, storeFault: bool): (r: AuthOutcome)
    ensures r.AuthThrew? <==> !CredentialsGiven(creds)
    ensures r.AuthThrew? ==> r.message == "Invalid credentials"
    ensures CredentialsGiven(creds) && (storeFault || !EmailTaken(users, creds.value.email.value)) ==> r == NoUser
    ensures r.Authorized? ==> !storeFault && exists u ::
      && u in users
      && u.email == creds.value.email.value
      && AcceptsPassword(u, creds.value.password.value, passwordMatches)
      && r.user == PublicUser(u.id, u.fullName, u.email, u.role)
  {
    if !CredentialsGiven(creds) then AuthThrew("Invalid credentials")
    else if storeFault then NoUser
    else
      var email, password := creds.value.email.value, creds.value.password.value;
      match FindByEmail(users, email, true)
      case None => NoUser
      case Some(user) =>
        if !passwordMatches(password, user.password.value) then NoUser
        else Authorized(WithoutPassword(user))
  }

  /** With unique emails, sign-in succeeds exactly for the stored user whose
      email is given and whose password matches, and a wrong password yields null. */
  lemma AuthorizeExactly(creds: Option<Credentials>, users: seq<StoredUser>,
                         passwordMatches: (string, string) -> bool, u: StoredUser)
    requires UniqueEmails(users)
    requires CredentialsGiven(creds) && u in users && u.email == creds.value.email.value
    ensures Authorize(creds, users, passwordMatches, false) ==
      if AcceptsPassword(u, creds.value.password.value, passwordMatches)
      then Authorized(PublicUser(u.id, u.fullName, u.email, u.role))
      else NoUser
  {
    FindByEmailIsTheOwner(users, u, true);
  }

  /** The JWT: the fields the `jwt` callback sets. */
  class Token {
    var id: Option<Id>
    var role: Option<Role>
    var name: Option<string>

    /** A token before any callback has run. */
    constructor ()
      ensures id.None? && role.None? && name.None?
    {
      id, role, name := None, None, None;
    }

    /** The `jwt` callback: copy id, role and full name from the user when
        there is one (at sign-in); otherwise leave the token as it is. */
    method Jwt(user: Option<PublicUser>)
      modifies this
      ensures user.Some? ==> id == Some(user.value.id) && role == Some(user.value.role) && name == Some(user.value.fullName)
      ensures user.None? ==> id == old(id) && role == old(role) && name == old(name)
    {
      if user.Some? {
        id := Some(user.value.id);
        role := Some(user.value.role);
        name := Some(user.value.fullName);
      }
    }
  }

  /** `session.user`: the object the `session` callback fills in. */
  class SessionUserObject {
    var id: Option<Id>
    var role: Option<Role>
    var name: Option<string>

    constructor (name: Option<string>)
      ensures this.id.None? && this.role.None? && this.name == name
    {
      this.id, this.role, this.name := None, None, name;
    }
  }

  class Session {
    var user: SessionUserObject?

    constructor (user: SessionUserObject?)
      ensures this.user == user
    {
      this.user := user;
    }

    /** The `session` callback: when the session has a user, copy the token's
        id and role into it. */
    method ApplyToken(token: Token)
      modifies user
      ensures user == old(user)
      ensures user != null ==> user.id == token.id && user.role == token.role && user.name == old(user.name)
    {
      if user != null {
        user.id := token.id;
        user.role := token.role;
      }
    }

    /** The caller a route sees, when the session carries both id and role. */
    function Identity(): (r: Option<SessionUser>)
      reads this, user
      ensures r.Some? <==> user != null && user.id.Some? && user.role.Some?
      ensures r.Some? ==> r.value.id == user.id.value && r.value.role == user.role.value
    {
      if user != null && user.id.Some? && user.role.Some? then Some(SessionUser(user.id.value, user.role.value))
      else None
    }
  }

  /** Sign-in followed by a later request: `authorize`, the `jwt` callback with
      the user, the `jwt` callback again without one, then the `session`
      callback on a fresh session. The identity the routes then read is the
      signed-in user's id and stored role. */
  method SignInThenRequest(creds: Option<Credentials>, users: seq<StoredUser>,
                           passwordMatches: (string, string) -> bool, storeFault: bool)
    returns (identity: Option<SessionUser>)
    ensures identity.Some? <==> Authorize(creds, users, passwordMatches, storeFault).Authorized?
    ensures identity.Some? ==> exists u ::
      && u in users
      && u.email == creds.value.email.value
      && AcceptsPassword(u, creds.value.password.value, passwordMatches)
      && identity.value == SessionUser(u.id, u.role)
  {
    var outcome := Authorize(creds, users, passwordMatches, storeFault);
    if !outcome.Authorized? {
      return None;
    }
    var token := new Token();
    token.Jwt(Some(outcome.user));
    token.Jwt(None);
    var fields := new SessionUserObject(Some(outcome.user.fullName));
    var session := new Session(fields);
    session.ApplyToken(token);
    identity := session.Identity();
  }
}

=== FILE: client_api.dfy ===
/** The browser's calls to the API (src/lib/api.ts): how `getLeads` builds its
    query parameters, what each of the four calls sends, and the rule that a
    response that is not ok becomes a thrown error. The network is a parameter:
    each call is given the response the server sent. */
module ClientApi {
  import opened Wrappers
  import opened Domain
  import opened Text
  import opened UrlParams
  import opened LeadModel
  import opened LeadsRoute

  /** The lead fields a form submits. */
  datatype LeadFormData = LeadFormData(
    fullName: string,
    email: string,
    phone: string,
    company: Option<string>,
    source: Option<string>,
    notes: Option<string>,
    status: Status)

  /** The document the server parses out of `JSON.stringify(data)`: absent
      optional fields stay absent, and neither an owner nor a creation time is sent. */
  function BodyOf(data: LeadFormData): (doc: LeadDoc)
    ensures doc.fullName == Some(data.fullName) && doc.email == Some(data.email) && doc.phone == Some(data.phone)
    ensures doc.company == data.company && doc.source == data.source && doc.notes == data.notes
    ensures doc.createdBy.None? && doc.createdAt.None?
    ensures doc.status == Some(StatusName(data.status)) && ParseStatus(doc.status.value) == Some(data.status)
  {
    LeadDoc(Some(data.fullName), Some(data.email), Some(data.phone), data.company, data.source,
            Some(StatusName(data.status)), data.notes, None, None)
  }

  /** The arguments of `getLeads`; an absent one takes its default. */
  datatype GetLeadsArgs = GetLeadsArgs(page: Option<int>, limit: Option<int>, status: Option<string>, query: Option<string>)

  function OrElse<T>(v: Option<T>, default: T): T
  {
    if v.Some? then v.value else default
  }

  datatype Verb = GET | POST | PUT | DELETE

  /** A request as `fetch` is asked to send it. */
  datatype HttpRequest = HttpRequest(verb: Verb, path: string, params: Params, body: Option<LeadFormData>)

  datatype HttpResponse<T> = HttpResponse(ok: bool, json: T)

  /** The outcome of a call: the parsed body, or the error it throws. */
  datatype ApiOutcome<T> = Returned(value: T) | Threw(message: string)

  /** The rule every call applies to its response: not ok throws with the call's
      message, ok returns the parsed body. */
  function Settle<T>(response: HttpResponse<T>, failure: string): (r: ApiOutcome<T>)
    ensures r.Threw? <==> !response.ok
    ensures r.Threw? ==> r.message == failure
    ensures r.Returned? ==> r.value == response.json
  {
    if response.ok then Returned(response.json) else Threw(failure)
  }

  /** The parameters `getLeads` sends: page and limit first and in that order,
      then status and query, each only when non-empty. */
  function LeadsParams(page: int, limit: int, status: string, query: string): (ps: Params)
    ensures |ps| >= 2 && ps[0].0 == "page" && ps[1].0 == "limit"
    ensures Lookup(ps, "status").Some? <==> status != ""
    ensures Lookup(ps, "query").Some? <==> query != ""
  {
    var ps := [("page", IntToString(page)), ("limit", IntToString(limit))]
      + (if status != "" then [("status", status)] else [])
      + (if query != "" then [("query", query)] else []);
    assert status != "" ==> ps[2] == ("status", status);
    assert query != "" ==> ps[|ps| - 1] == ("query", query);
    assert forall i :: 0 <= i < |ps| ==>
      (ps[i].0 == "page" || ps[i].0 == "limit" || (status != "" && ps[i].0 == "status") || (query != "" && ps[i].0 == "query"));
    ps
  }

  /** Round trip: the server's reading of these parameters gives back the
      page, the limit, and the status and query when they were non-empty. */
  lemma LeadsParamsRoundTrip(page: int, limit: int, status: string, query: string)
    ensures ParseListParams(LeadsParams(page, limit, status, query)) == ListParams(
      Some(page), Some(limit),
      if status == "" then None else Some(status),
      if query == "" then None else Some(query))
  {
    var ps := LeadsParams(page, limit, status, query);
    LookupLeadsParams(page, limit, status, query);
    assert ParseNumber(ps, "page", "1") == Some(page) by {
      assert IntToString(page) != "";
      ParseIntOfIntToString(page);
    }
    assert ParseNumber(ps, "limit", "10") == Some(limit) by {
      assert IntToString(limit) != "";
      ParseIntOfIntToString(limit);
    }
  }

  lemma LookupLeadsParams(page: int, limit: int, status: string, query: string)
    ensures var ps := LeadsParams(page, limit, status, query);
      && Lookup(ps, "page") == Some(IntToString(page))
      && Lookup(ps, "limit") == Some(IntToString(limit))
      && Lookup(ps, "status") == (if status == "" then None else Some(status))
      && Lookup(ps, "query") == (if query == "" then None else Some(query))
  {
    var ps := LeadsParams(page, limit, status, query);
    var tail := ps[2..];
    assert Lookup(ps, "status") == Lookup(ps[1..], "status") == Lookup(tail, "status");
    assert Lookup(ps, "query") == Lookup(ps[1..], "query") == Lookup(tail, "query");
    if status != "" {
      assert tail[0] == ("status", status);
      assert Lookup(tail, "query") == Lookup(tail[1..], "query");
    }
  }

  /** `getLeads`'s in-place construction of its `URLSearchParams`, with the
      defaults applied to absent arguments. */
  method BuildLeadsParams(args: GetLeadsArgs) returns (ps: Params)
    ensures ps == LeadsParams(OrElse(args.page, 1), OrElse(args.limit, 10), OrElse(args.status, ""), OrElse(args.query, ""))
  {
    var page, limit := OrElse(args.page, 1), OrElse(args.limit, 10);
    var status, query := OrElse(args.status, ""), OrElse(args.query, "");
    var params := new SearchParams(IntToString(page), IntToString(limit));
    if status != "" {
      params.Append("status", status);
    }
    if query != "" {
      params.Append("query", query);
    }
    ps := params.entries;
  }

  /** `getLeads`: GET /api/leads with the parameters above. */
  method GetLeads<T>(args: GetLeadsArgs, response: HttpResponse<T>) returns (request: HttpRequest, outcome: ApiOutcome<T>)
    ensures request.verb == GET && request.path == "/api/leads" && request.body.None?
    ensures ParseListParams(request.params) == ListParams(
      Some(OrElse(args.page, 1)), Some(OrElse(args.limit, 10)),
      if OrElse(args.status, "") == "" then None else args.status,
      if OrElse(args.query, "") == "" then None else args.query)
    ensures outcome.Threw? <==> !response.ok
    ensures outcome.Threw? ==> outcome.message == "Failed to fetch leads"
  {
    var ps := BuildLeadsParams(args);
    LeadsParamsRoundTrip(OrElse(args.page, 1), OrElse(args.limit, 10), OrElse(args.status, ""), OrElse(args.query, ""));
    request := HttpRequest(GET, "/api/leads", ps, None);
    outcome := Settle(response, "Failed to fetch leads");
  }

  /** `createLead`: POST /api/leads with the data as body. */
  function CreateLead<T>(data: LeadFormData, response: HttpResponse<T>): (r: (HttpRequest, ApiOutcome<T>))
    ensures r.0 == HttpRequest(POST, "/api/leads", [], Some(data))
    ensures r.1.Threw? <==> !response.ok
    ensures r.1.Threw? ==> r.1.message == "Failed to create lead"
  {
    (HttpRequest(POST, "/api/leads", [], Some(data)), Settle(response, "Failed to create lead"))
  }

  /** `updateLead`: PUT /api/leads/{id} with the data as body. */
  function UpdateLead<T>(id: Id, data: LeadFormData, response: HttpResponse<T>): (r: (HttpRequest, ApiOutcome<T>))
    ensures r.0 == HttpRequest(PUT, "/api/leads/" + id, [], Some(data))
    ensures r.1.Threw? <==> !response.ok
    ensures r.1.Threw? ==> r.1.message == "Failed to update lead"
  {
    (HttpRequest(PUT, "/api/leads/" + id, [], Some(data)), Settle(response, "Failed to update lead"))
  }

  /** `deleteLead`: DELETE /api/leads/{id} without a body. */
  function DeleteLead<T>(id: Id, response: HttpResponse<T>): (r: (HttpRequest, ApiOutcome<T>))
    ensures r.0 == HttpRequest(DELETE, "/api/leads/" + id, [], None)
    ensures r.1.Threw? <==> !response.ok
    ensures r.1.Threw? ==> r.1.message == "Failed to delete lead"
  {
    (HttpRequest(DELETE, "/api/leads/" + id, [], None), Settle(response, "Failed to delete lead"))
  }
}

=== FILE: dashboard.dfy ===
/** The salesperson's dashboard (src/components/dashboard/SalespersonDashboard.tsx):
    its page, search, status filter, form and edited-lead state, and the
    handlers that change them. */
module Dashboard {
  import opened Wrappers
  import opened Domain
  import opened UrlParams
  import opened LeadsRoute
  import opened ClientApi

  /** The `currentPage` and `totalPages` of the last list response. */
  datatype PageInfo = PageInfo(currentPage: int, totalPages: int)

  /** The filter's displayed choice for a stored filter value. */
  function SelectValue(statusFilter: string): (shown: string)
    ensures statusFilter == "" ==> shown == "all"
    ensures statusFilter != "" ==> shown == statusFilter
  {
    if statusFilter == "" then "all" else statusFilter
  }

  /** The stored filter value for a choice in the select. */
  function FilterFor(choice: string): (filter: string)
    ensures choice == "all" ==> filter == ""
    ensures choice != "all" ==> filter == choice
  {
    if choice == "all" then "" else choice
  }

  /** Choosing any non-empty option and displaying the stored value shows that
      option again. */
  lemma SelectShowsChoice(choice: string)
    requires choice != ""
    ensures SelectValue(FilterFor(choice)) == choice
  {
  }

  class SalespersonDashboard {
    var page: int
    var searchQuery: string
    var statusFilter: string
    var isFormOpen: bool
    var leadToEdit: Option<Lead>

    /** Pages are numbered from 1. */
    ghost predicate Valid()
      reads this
    {
      page >= 1
    }

    constructor ()
      ensures Valid()
      ensures page == 1 && searchQuery == "" && statusFilter == "" && !isFormOpen && leadToEdit.None?
    {
      page, searchQuery, statusFilter := 1, "", "";
      isFormOpen, leadToEdit := false, None;
    }

    /** The arguments of the list query: the current page, search and filter;
        the limit takes `getLeads`'s default. */
    function FetchArgs(): (args: GetLeadsArgs)
      reads this
      ensures args.page == Some(page) && args.limit.None?
      ensures args.query == Some(searchQuery) && args.status == Some(statusFilter)
    {
      GetLeadsArgs(Some(page), None, Some(statusFilter), Some(searchQuery))
    }

    /** What the server reads from the dashboard's list request: this page, ten
        leads per page, and the filter and search only when non-empty. */
    method FetchParams() returns (ps: Params)
      requires Valid()
      ensures PagingWellFormed(ParseListParams(ps))
      ensures ParseListParams(ps) == ListParams(
        Some(page), Some(10),
        if statusFilter == "" then None else Some(statusFilter),
        if searchQuery == "" then None else Some(searchQuery))
    {
      ps := BuildLeadsParams(FetchArgs());
      LeadsParamsRoundTrip(page, 10, statusFilter, searchQuery);
    }

    /** Previous: one page back, never below page 1. */
    method Previous()
      requires Valid()
      modifies this
      ensures Valid()
      ensures page == if old(page) - 1 >= 1 then old(page) - 1 else 1
      ensures searchQuery == old(searchQuery) && statusFilter == old(statusFilter)
      ensures isFormOpen == old(isFormOpen) && leadToEdit == old(leadToEdit)
    {
      page := if page - 1 >= 1 then page - 1 else 1;
    }

    /** Next: stays put when the last response says its page is the last (also
        when there is no response yet, where both sides are undefined);
        otherwise one page on. */
    method Next(data: Option<PageInfo>)
      requires Valid()
      modifies this
      ensures Valid()
      ensures page == if data.None? || data.value.currentPage == data.value.totalPages then old(page) else old(page) + 1
      ensures page >= old(page)
      ensures searchQuery == old(searchQuery) && statusFilter == old(statusFilter)
      ensures isFormOpen == old(isFormOpen) && leadToEdit == old(leadToEdit)
    {
      if data.Some? && data.value.currentPage != data.value.totalPages {
        page := page + 1;
      }
    }

    /** The status select's change handler; the page is kept. */
    method SelectStatus(choice: string)
      requires Valid()
      modifies this
      ensures Valid()
      ensures statusFilter == FilterFor(choice)
      ensures choice != "" ==> SelectValue(statusFilter) == choice
      ensures page == old(page) && searchQuery == old(searchQuery)
      ensures isFormOpen == old(isFormOpen) && leadToEdit == old(leadToEdit)
    {
      statusFilter := FilterFor(choice);
    }

    /** The search box's change handler; the page is kept. */
    method SetSearch(text: string)
      requires Valid()
      modifies this
      ensures Valid()
      ensures searchQuery == text
      ensures page == old(page) && statusFilter == old(statusFilter)
      ensures isFormOpen == old(isFormOpen) && leadToEdit == old(leadToEdit)
    {
      searchQuery := text;
    }

    /** Edit on a row: remember the lead and open the form. */
    method HandleEdit(lead: Lead)
      requires Valid()
      modifies this
      ensures Valid()
      ensures leadToEdit == Some(lead) && isFormOpen
      ensures page == old(page) && searchQuery == old(searchQuery) && statusFilter == old(statusFilter)
    {
      leadToEdit := Some(lead);
      isFormOpen := true;
    }

    /** Add New Lead: forget any edited lead and open the form. */
    method OpenNewLeadForm()
      requires Valid()
      modifies this
      ensures Valid()
      ensures leadToEdit.None? && isFormOpen
      ensures page == old(page) && searchQuery == old(searchQuery) && statusFilter == old(statusFilter)
    {
      leadToEdit := None;
      isFormOpen := true;
    }

    /** `setIsFormOpen`, as the form calls it (closing after a save). */
    method SetFormOpen(open: bool)
      requires Valid()
      modifies this
      ensures Valid()
      ensures isFormOpen == open
      ensures page == old(page) && searchQuery == old(searchQuery) && statusFilter == old(statusFilter)
      ensures leadToEdit == old(leadToEdit)
    {
      isFormOpen := open;
    }
  }
}

=== FILE: domain.dfy ===
/** The shared shapes of the CRM: lead statuses, user roles, a stored lead
    and the identity a route reads from the session (src/types/index.ts,
    src/next-auth.d.ts, src/models/Lead.ts). */
module Domain {
  import opened Wrappers

  /** Database identifiers (Mongo ObjectIds) as they travel in the session and in URLs. */
  type Id = string

  /** The five lead statuses. */
  datatype Status = New | Contacted | InProgress | Won | Lost

  /** The two user roles. */
  datatype Role = Admin | Salesperson

  /** The text the database stores and the API sends for each status. */
  function StatusName(s: Status): string
  {
    match s
    case New => "New"
    case Contacted => "Contacted"
    case InProgress => "In Progress"
    case Won => "Won"
    case Lost => "Lost"
  }

  /** The enum check of the schemas: a string names a status exactly when it is
      one of the five names, case and spacing included. */
  function ParseStatus(s: string): (r: Option<Status>)
    ensures r.Some? ==> StatusName(r.value) == s
    ensures forall st: Status :: StatusName(st) == s ==> r == Some(st)
  {
    if s == "New" then Some(New)
    else if s == "Contacted" then Some(Contacted)
    else if s == "In Progress" then Some(InProgress)
    else if s == "Won" then Some(Won)
    else if s == "Lost" then Some(Lost)
    else None
  }

  function RoleName(r: Role): string
  {
    match r
    case Admin => "admin"
    case Salesperson => "salesperson"
  }

  /** The role enum check of the user schema. */
  function ParseRole(s: string): (r: Option<Role>)
    ensures r.Some? ==> RoleName(r.value) == s
    ensures forall role: Role :: RoleName(role) == s ==> r == Some(role)
  {
    if s == "admin" then Some(Admin)
    else if s == "salesperson" then Some(Salesperson)
    else None
  }

  /** A persisted lead. `createdBy` is the owner's id; `createdAt` and
      `updatedAt` are the store's timestamps. */
  datatype Lead = Lead(
    id: Id,
    fullName: string,
    email: string,
    phone: string,
    company: Option<string>,
    source: Option<string>,
    status: Status,
    notes: Option<string>,
    createdBy: Id,
    createdAt: int,
    updatedAt: int)

  /** The caller as a route sees it: `session.user.id` and `session.user.role`. */
  datatype SessionUser = SessionUser(id: Id, role: Role)

  /** JavaScript truthiness of an optional string: absent and "" are both false. */
  predicate Truthy(v: Option<string>)
  {
    v.Some? && v.value != ""
  }
}

=== FILE: lead_form.dfy ===
/** The lead form (src/components/leads/LeadForm.tsx): its validation schema,
    the values it is reset to, and the choice between creating and updating on
    submit. zod's email check is a parameter. */
module LeadForm {
  import opened Wrappers
  import opened Domain
  import opened LeadsRoute
  import opened ClientApi

  /** What the form holds. Resetting it from a lead to edit also brings that
      lead's other keys (`_id`, `notes`, `createdBy`) into the values. */
  datatype FormValues = FormValues(
    fullName: string,
    email: string,
    phone: string,
    company: Option<string>,
    source: Option<string>,
    status: string,
    leadId: Option<Id>,
    notes: Option<string>,
    createdBy: Option<Id>)

  datatype FormIssue = FullNameTooShort | InvalidEmail | PhoneTooShort | InvalidStatus

  predicate IssueApplies(v: FormValues, issue: FormIssue, isEmail: string -> bool)
  {
    match issue
    case FullNameTooShort => |v.fullName| < 2
    case InvalidEmail => !isEmail(v.email)
    case PhoneTooShort => |v.phone| < 10
    case InvalidStatus => ParseStatus(v.status).None?
  }

  /** `leadSchema.parse(values)`: the four checks, all reported together; on
      success the six schema fields and nothing else. */
  function ValidateForm(v: FormValues, isEmail: string -> bool): (r: Result<LeadFormData, seq<FormIssue>>)
    ensures r.Success? <==> |v.fullName| >= 2 && isEmail(v.email) && |v.phone| >= 10 && ParseStatus(v.status).Some?
    ensures r.Failure? ==> r.error != [] && forall i :: i in r.error <==> IssueApplies(v, i, isEmail)
    ensures r.Success? ==>
      && r.value.fullName == v.fullName && r.value.email == v.email && r.value.phone == v.phone
      && r.value.company == v.company && r.value.source == v.source
      && StatusName(r.value.status) == v.status
      && r.value.notes.None?
  {
    var issues :=
      (if IssueApplies(v, FullNameTooShort, isEmail) then [FullNameTooShort] else [])
      + (if IssueApplies(v, InvalidEmail, isEmail) then [InvalidEmail] else [])
      + (if IssueApplies(v, PhoneTooShort, isEmail) then [PhoneTooShort] else [])
      + (if IssueApplies(v, InvalidStatus, isEmail) then [InvalidStatus] else []);
    if issues != [] then Failure(issues)
    else Success(LeadFormData(v.fullName, v.email, v.phone, v.company, v.source, None, ParseStatus(v.status).value))
  }

  /** The values of an empty form: empty strings and status New. */
  const EmptyForm := FormValues("", "", "", Some(""), Some(""), "New", None, None, None)

  /** The values the form is reset to: the lead being edited, or the empty form. */
  function ResetValues(leadToEdit: Option<Lead>): (v: FormValues)
    ensures leadToEdit.None? ==> v == EmptyForm
    ensures leadToEdit.Some? ==>
      && v.fullName == leadToEdit.value.fullName && v.email == leadToEdit.value.email
      && v.phone == leadToEdit.value.phone && ParseStatus(v.status) == Some(leadToEdit.value.status)
      && v.company == leadToEdit.value.company && v.source == leadToEdit.value.source
      && v.notes == leadToEdit.value.notes
      && v.leadId == Some(leadToEdit.value.id) && v.createdBy == Some(leadToEdit.value.createdBy)
  {
    match leadToEdit
    case None => EmptyForm
    case Some(l) =>
      FormValues(l.fullName, l.email, l.phone, l.company, l.source, StatusName(l.status),
                 Some(l.id), l.notes, Some(l.createdBy))
  }

  /** `mutationFn`: update the lead being edited, or create a new one. */
  function Dispatch<T>(leadToEdit: Option<Lead>, data: LeadFormData, response: HttpResponse<T>): (r: (HttpRequest, ApiOutcome<T>))
    ensures leadToEdit.Some? ==> r.0.verb == PUT && r.0.path == "/api/leads/" + leadToEdit.value.id
    ensures leadToEdit.None? ==> r.0.verb == POST && r.0.path == "/api/leads"
    ensures r.0.body == Some(data)
  {
    if leadToEdit.Some? then UpdateLead(leadToEdit.value.id, data, response)
    else CreateLead(data, response)
  }

  /** The form's state: its current values. */
  class LeadFormState {
    var values: FormValues

    constructor ()
      ensures values == EmptyForm
    {
      values := EmptyForm;
    }

    /** The effect that runs when `leadToEdit` changes. */
    method Sync(leadToEdit: Option<Lead>)
      modifies this
      ensures values == ResetValues(leadToEdit)
    {
      values := ResetValues(leadToEdit);
    }

    /** `form.handleSubmit(onSubmit)`: when the values validate, the request the
        mutation sends and its outcome; otherwise nothing is sent. */
    method Submit<T>(leadToEdit: Option<Lead>, isEmail: string -> bool, response: HttpResponse<T>)
      returns (sent: Option<(HttpRequest, ApiOutcome<T>)>)
      ensures sent.Some? <==> ValidateForm(values, isEmail).Success?
      ensures sent.Some? ==> sent.value == Dispatch(leadToEdit, ValidateForm(values, isEmail).value, response)
    {
      match ValidateForm(values, isEmail)
      case Failure(_) =>
        sent := None;
      case Success(data) =>
        sent := Some(Dispatch(leadToEdit, data, response));
    }
  }

  /** A payload the form accepts, posted by any signed-in user, is stored: the
      form's rules are stricter than the schema's, and the new lead belongs to
      the poster and carries no notes. */
  lemma FormPayloadIsStored(v: FormValues, isEmail: string -> bool, user: SessionUser,
                            leads: seq<Lead>, newId: Id, now: int)
    requires !isEmail("")
    requires ValidateForm(v, isEmail).Success?
    ensures var r := Post(Some(user), Parsed(BodyOf(ValidateForm(v, isEmail).value)), leads, newId, now, NoFault);
      && r.0.Created?
      && r.0.lead.createdBy == user.id
      && r.0.lead.fullName == v.fullName && r.0.lead.email == v.email && r.0.lead.phone == v.phone
      && r.0.lead.company == v.company && r.0.lead.source == v.source
      && StatusName(r.0.lead.status) == v.status
      && r.0.lead.notes.None?
      && r.0.lead.createdAt == now
  {
    var data := ValidateForm(v, isEmail).value;
    assert data.email != "";
    assert ParseStatus(StatusName(data.status)) == Some(data.status);
  }
}

=== FILE: lead_model.dfy ===
/** The lead schema (src/models/Lead.ts): which documents the store accepts,
    what it fills in (the default status, the timestamps), and the validity
    every persisted lead keeps. */
module LeadModel {
  import opened Wrappers
  import opened Domain

  /** A lead document as handed to `Lead.create`: every field may be absent. */
  datatype LeadDoc = LeadDoc(
    fullName: Option<string>,
    email: Option<string>,
    phone: Option<string>,
    company: Option<string>,
    source: Option<string>,
    status: Option<string>,
    notes: Option<string>,
    createdBy: Option<Id>,
    createdAt: Option<int>)

  /** The schema paths that carry a validator. */
  datatype LeadField = FullName | Email | Phone | StatusPath | CreatedBy

  const CheckedFields: seq<LeadField> := [FullName, Email, Phone, StatusPath, CreatedBy]

  /** Whether the schema rejects the document at path `f`: the three required
      strings must be non-empty, a given status must be one of the five names
      (an absent one takes the default), and the owner must be given. */
  predicate FieldInvalid(doc: LeadDoc, f: LeadField)
  {
    match f
    case FullName => !Truthy(doc.fullName)
    case Email => !Truthy(doc.email)
    case Phone => !Truthy(doc.phone)
    case StatusPath => doc.status.Some? && ParseStatus(doc.status.value).None?
    case CreatedBy => doc.createdBy.None?
  }

  predicate DocValid(doc: LeadDoc)
  {
    && !FieldInvalid(doc, FullName)
    && !FieldInvalid(doc, Email)
    && !FieldInvalid(doc, Phone)
    && !FieldInvalid(doc, StatusPath)
    && !FieldInvalid(doc, CreatedBy)
  }

  lemma EveryFieldChecked(f: LeadField)
    ensures f in CheckedFields
  {
    match f
    case FullName => assert CheckedFields[0] == f;
    case Email => assert CheckedFields[1] == f;
    case Phone => assert CheckedFields[2] == f;
    case StatusPath => assert CheckedFields[3] == f;
    case CreatedBy => assert CheckedFields[4] == f;
  }

  /** The paths of a validation error, in schema order. */
  function ValidationErrors(doc: LeadDoc): (errs: seq<LeadField>)
    ensures forall f :: f in errs <==> FieldInvalid(doc, f)
  {
    assert forall f :: f in CheckedFields by {
      forall f ensures f in CheckedFields {
        EveryFieldChecked(f);
      }
    }
    Keep(doc, CheckedFields)
  }

  function Keep(doc: LeadDoc, fs: seq<LeadField>): (r: seq<LeadField>)
    ensures forall f :: f in r <==> f in fs && FieldInvalid(doc, f)
  {
    if fs == [] then []
    else (if FieldInvalid(doc, fs[0]) then [fs[0]] else []) + Keep(doc, fs[1..])
  }

  /** The status a valid document is stored with: the one it names, or New. */
  function StatusOf(doc: LeadDoc): (st: Status)
    requires !FieldInvalid(doc, StatusPath)
    ensures doc.status.None? ==> st == New
    ensures doc.status.Some? ==> StatusName(st) == doc.status.value
  {
    if doc.status.None? then New else ParseStatus(doc.status.value).value
  }

  /** What every persisted lead satisfies. */
  predicate StoredLeadValid(l: Lead)
  {
    l.fullName != "" && l.email != "" && l.phone != ""
  }

  /** The creation time `timestamps: true` stores: one the document already
      carries is kept, otherwise the store's clock reading `now`. */
  function CreationTime(doc: LeadDoc, now: int): int
  {
    if doc.createdAt.Some? then doc.createdAt.value else now
  }

  /** `Lead.create(doc)`: validate, then build the stored record with the given
      id; both timestamps are the creation time. */
  function Create(doc: LeadDoc, id: Id, now: int): (r: Result<Lead, seq<LeadField>>)
    ensures r.Success? <==> DocValid(doc)
    ensures r.Failure? ==> r.error == ValidationErrors(doc)
    ensures r.Failure? ==> r.error != [] && forall f :: f in r.error <==> FieldInvalid(doc, f)
    ensures r.Success? ==> StoredLeadValid(r.value)
    ensures r.Success? ==>
      && r.value.id == id
      && Some(r.value.fullName) == doc.fullName
      && Some(r.value.email) == doc.email
      && Some(r.value.phone) == doc.phone
      && r.value.company == doc.company
      && r.value.source == doc.source
      && r.value.notes == doc.notes
      && Some(r.value.createdBy) == doc.createdBy
      && (doc.status.None? ==> r.value.status == New)
      && (doc.status.Some? ==> StatusName(r.value.status) == doc.status.value)
      && (doc.createdAt.Some? ==> r.value.createdAt == doc.createdAt.value)
      && (doc.createdAt.None? ==> r.value.createdAt == now)
      && r.value.updatedAt == r.value.createdAt
  {
    var errs := ValidationErrors(doc);
    if errs != [] then
      assert errs[0] in errs && FieldInvalid(doc, errs[0]);
      Failure(errs)
    else
      assert FullName !in errs && Email !in errs && Phone !in errs;
      assert StatusPath !in errs && CreatedBy !in errs;
      Success(Lead(id, doc.fullName.value, doc.email.value, doc.phone.value,
                   doc.company, doc.source, StatusOf(doc), doc.notes,
                   doc.createdBy.value, CreationTime(doc, now), CreationTime(doc, now)))
  }

  /** The lead collection's invariant: every stored lead passed validation. */
  predicate StoreValid(leads: seq<Lead>)
  {
    forall l :: l in leads ==> StoredLeadValid(l)
  }
}

=== FILE: leads_route.dfy ===
/** The leads route (src/app/api/leads/route.ts): the role-scoped, filtered,
    newest-first page of leads that GET returns, and the create of POST, whose
    owner is always the caller. The lead collection is an in-memory sequence. */
module LeadsRoute {
  import opened Wrappers
  import opened Domain
  import opened Text
  import opened UrlParams
  import opened LeadModel

  // ---------------------------------------------------------------------------
  // The query object and what it selects
  // ---------------------------------------------------------------------------

  /** The Mongo filter GET builds: an owner constraint, an exact status and a
      search pattern, each of which may be absent. */
  datatype LeadQuery = LeadQuery(createdBy: Option<Id>, status: Option<string>, search: Option<string>)

  const EmptyQuery := LeadQuery(None, None, None)

  /** The `$or` of three case-insensitive tests on name, email and phone. */
  predicate SearchHit(pattern: string, l: Lead)
  {
    || ContainsIgnoringCase(l.fullName, pattern)
    || ContainsIgnoringCase(l.email, pattern)
    || ContainsIgnoringCase(l.phone, pattern)
  }

  /** A lead satisfies a query when it satisfies every constraint present. */
  predicate Matches(q: LeadQuery, l: Lead)
  {
    && (q.createdBy.Some? ==> l.createdBy == q.createdBy.value)
    && (q.status.Some? ==> StatusName(l.status) == q.status.value)
    && (q.search.Some? ==> SearchHit(q.search.value, l))
  }

  /** What the caller may see and what they asked for: a salesperson only their
      own leads, anyone only the requested status and search hits. */
  predicate Selected(user: SessionUser, status: Option<string>, search: Option<string>, l: Lead)
  {
    && (user.role == Salesperson ==> l.createdBy == user.id)
    && (Truthy(status) ==> StatusName(l.status) == status.value)
    && (Truthy(search) ==> SearchHit(search.value, l))
  }

  /** The query GET builds, stated as a value. */
  function QueryFor(user: SessionUser, status: Option<string>, search: Option<string>): (q: LeadQuery)
    ensures q.createdBy.Some? <==> user.role == Salesperson
    ensures forall l :: Matches(q, l) <==> Selected(user, status, search, l)
  {
    LeadQuery(if user.role == Salesperson then Some(user.id) else None,
              if Truthy(status) then status else None,
              if Truthy(search) then search else None)
  }

  /** GET's step-by-step construction of the query object: start empty, add the
      owner for a salesperson, the status if non-empty, the search if non-empty. */
  method BuildQuery(user: SessionUser, status: Option<string>, searchQuery: Option<string>) returns (q: LeadQuery)
    ensures q == QueryFor(user, status, searchQuery)
    ensures forall l :: Matches(q, l) <==> Selected(user, status, searchQuery, l)
  {
    q := EmptyQuery;
    if user.role == Salesperson {
      q := q.(createdBy := Some(user.id));
    }
    if Truthy(status) {
      q := q.(status := status);
    }
    if Truthy(searchQuery) {
      q := q.(search := searchQuery);
    }
  }

  // ---------------------------------------------------------------------------
  // Filtering, newest-first order and the page window
  // ---------------------------------------------------------------------------

  /** `Lead.find(query)`: the matching leads, in store order. */
  function Filter(q: LeadQuery, leads: seq<Lead>): (r: seq<Lead>)
    ensures |r| <= |leads|
    ensures forall l :: l in r <==> l in leads && Matches(q, l)
    ensures forall l :: multiset(r)[l] == if Matches(q, l) then multiset(leads)[l] else 0
  {
    if leads == [] then []
    else
      assert leads == [leads[0]] + leads[1..];
      (if Matches(q, leads[0]) then [leads[0]] else []) + Filter(q, leads[1..])
  }

  /** `.sort({ createdAt: -1 })`: creation time never increases along the list. */
  predicate NewestFirst(s: seq<Lead>)
  {
    forall i, j :: 0 <= i < j < |s| ==> s[i].createdAt >= s[j].createdAt
  }

  function InsertNewestFirst(l: Lead, s: seq<Lead>): (r: seq<Lead>)
    requires NewestFirst(s)
    ensures NewestFirst(r)
    ensures multiset(r) == multiset(s) + multiset{l}
  {
    if s == [] then [l]
    else if l.createdAt >= s[0].createdAt then [l] + s
    else
      var rest := InsertNewestFirst(l, s[1..]);
      ConsNewestFirst(s, l, rest);
      [s[0]] + rest
  }

  /** Putting back the head of a newest-first list in front of the insertion
      into its tail keeps the order, when the inserted lead is older than it. */
  lemma ConsNewestFirst(s: seq<Lead>, l: Lead, rest: seq<Lead>)
    requires s != [] && NewestFirst(s) && NewestFirst(rest)
    requires l.createdAt < s[0].createdAt
    requires multiset(rest) == multiset(s[1..]) + multiset{l}
    ensures NewestFirst([s[0]] + rest)
    ensures multiset([s[0]] + rest) == multiset(s) + multiset{l}
  {
    forall x | x in rest
      ensures x.createdAt <= s[0].createdAt
    {
      assert x in multiset(rest);
      if x != l {
        assert x in multiset(s[1..]);
        var k :| 0 <= k < |s[1..]| && s[1..][k] == x;
        assert s[k + 1] == x;
      }
    }
    var r := [s[0]] + rest;
    forall i, j | 0 <= i < j < |r|
      ensures r[i].createdAt >= r[j].createdAt
    {
      assert r[j] == rest[j - 1];
      if i > 0 {
        assert r[i] == rest[i - 1];
      }
    }
    assert s == [s[0]] + s[1..];
  }

  /** No two of the leads were created at the same time. */
  predicate DistinctCreationTimes(s: seq<Lead>)
  {
    forall a, b :: a in s && b in s && a.createdAt == b.createdAt ==> a == b
  }

  /** The leads reordered newest first. Leads created at the same time may come
      in any order; this is one of the orders the store may choose. */
  function SortNewestFirst(s: seq<Lead>): (r: seq<Lead>)
    ensures NewestFirst(r)
    ensures multiset(r) == multiset(s)
  {
    if s == [] then []
    else
      assert s == [s[0]] + s[1..];
      InsertNewestFirst(s[0], SortNewestFirst(s[1..]))
  }

  function Min(a: int, b: int): int
  {
    if a <= b then a else b
  }

  /** `.skip(skip).limit(take)`: up to `take` consecutive elements from position `skip`. */
  function Window(s: seq<Lead>, skip: nat, take: nat): (r: seq<Lead>)
    ensures |r| <= take
    ensures skip >= |s| ==> r == []
    ensures skip < |s| ==> |r| == Min(take, |s| - skip)
    ensures forall i :: 0 <= i < |r| ==> r[i] == s[skip + i]
  {
    if skip >= |s| then [] else s[skip..Min(skip + take, |s|)]
  }

  /** `Math.ceil(total / limit)`: the fewest pages of `limit` that hold `total`. */
  function CeilDiv(total: nat, limit: nat): (r: nat)
    requires limit >= 1
    ensures r * limit >= total
    ensures r == 0 || (r - 1) * limit < total
  {
    var r := (total + limit - 1) / limit;
    assert r * limit + (total + limit - 1) % limit == total + limit - 1;
    r
  }

  /** One page of a list request; `total` is the size of the whole filtered set. */
  datatype ListPage = ListPage(leads: seq<Lead>, total: nat, totalPages: nat, currentPage: int)

  lemma WindowOfNewestFirst(s: seq<Lead>, skip: nat, take: nat)
    requires NewestFirst(s)
    ensures NewestFirst(Window(s, skip, take))
    ensures forall l :: l in Window(s, skip, take) ==> l in s
  {
    var w := Window(s, skip, take);
    forall i, j | 0 <= i < j < |w|
      ensures w[i].createdAt >= w[j].createdAt
    {
      assert w[i] == s[skip + i] && w[j] == s[skip + j];
    }
    forall l | l in w
      ensures l in s
    {
      var k :| 0 <= k < |w| && w[k] == l;
      assert s[skip + k] == l;
    }
  }

  /** A page past the last one starts beyond the end of the filtered set. */
  lemma PastLastPage(page: int, limit: int, totalPages: nat, total: nat)
    requires limit >= 1 && page > totalPages
    requires totalPages * limit >= total
    ensures (page - 1) * limit >= total
  {
    var extra := page - 1 - totalPages;
    assert extra >= 0;
    assert (page - 1) * limit == totalPages * limit + extra * limit;
  }

  lemma SortedLength(s: seq<Lead>, t: seq<Lead>)
    requires multiset(s) == multiset(t)
    ensures |s| == |t|
    ensures forall l :: l in s <==> l in t
  {
    assert |s| == |multiset(s)| && |t| == |multiset(t)|;
    forall l ensures l in s <==> l in t {
      assert l in s <==> l in multiset(s);
      assert l in t <==> l in multiset(t);
    }
  }

  /** The `Lead.find(query).sort(..).skip(..).limit(..)` and
      `Lead.countDocuments(query)` pair GET performs. */
  function List(q: LeadQuery, leads: seq<Lead>, page: int, limit: int): (r: ListPage)
    requires page >= 1 && limit >= 1
    ensures r.leads == Window(SortNewestFirst(Filter(q, leads)), (page - 1) * limit, limit)
    ensures forall l :: l in r.leads ==> l in leads && Matches(q, l)
    ensures |r.leads| <= limit
    ensures NewestFirst(r.leads)
    ensures r.total == |Filter(q, leads)|
    ensures r.totalPages == CeilDiv(r.total, limit)
    ensures page > r.totalPages ==> r.leads == []
    ensures r.currentPage == page
  {
    var matching := Filter(q, leads);
    var totalPages := CeilDiv(|matching|, limit);
    var window := PageWindow(matching, page, limit, totalPages);
    ListPage(window, |matching|, totalPages, page)
  }

  /** The page of the newest-first ordering of `matching` that `page` and
      `limit` select. */
  function PageWindow(matching: seq<Lead>, page: int, limit: int, totalPages: nat): (w: seq<Lead>)
    requires page >= 1 && limit >= 1
    requires totalPages * limit >= |matching|
    ensures w == Window(SortNewestFirst(matching), (page - 1) * limit, limit)
    ensures forall l :: l in w ==> l in matching
    ensures NewestFirst(w)
    ensures page > totalPages ==> w == []
  {
    var sorted := SortNewestFirst(matching);
    SortedLength(sorted, matching);
    WindowOfNewestFirst(sorted, (page - 1) * limit, limit);
    assert page > totalPages ==> (page - 1) * limit >= |sorted| by {
      if page > totalPages {
        PastLastPage(page, limit, totalPages, |matching|);
      }
    }
    Window(sorted, (page - 1) * limit, limit)
  }

  /** Every matching lead is listed on some page: nothing the query selects is
      lost by paging. Each page is a separate request, for which the store may
      choose its own newest-first order, `order(page)`; when no two matching
      leads share a creation time there is only one such order. */
  lemma {:induction false} ListedOnSomePage(q: LeadQuery, leads: seq<Lead>, limit: int, l: Lead, order: int -> seq<Lead>)
    requires limit >= 1
    requires l in leads && Matches(q, l)
    requires DistinctCreationTimes(Filter(q, leads))
    requires forall page :: NewestFirst(order(page)) && multiset(order(page)) == multiset(Filter(q, leads))
    ensures exists page ::
      && 1 <= page <= List(q, leads, 1, limit).totalPages
      && l in List(q, leads, page, limit).leads
      && l in Window(order(page), (page - 1) * limit, limit)
  {
    var matching := Filter(q, leads);
    var sorted := SortNewestFirst(matching);
    SortedLength(sorted, matching);
    var totalPages := List(q, leads, 1, limit).totalPages;
    var page := PageHolding(sorted, l, limit, totalPages);
    var skip := (page - 1) * limit;
    assert List(q, leads, page, limit).leads == Window(sorted, skip, limit);
    NewestFirstUnique(sorted, order(page));
  }

  /** The page of a list of `totalPages` pages of `limit` that holds `l`. */
  lemma PageHolding(sorted: seq<Lead>, l: Lead, limit: int, totalPages: nat) returns (page: int)
    requires limit >= 1 && l in sorted
    requires totalPages * limit >= |sorted|
    ensures 1 <= page <= totalPages
    ensures l in Window(sorted, (page - 1) * limit, limit)
  {
    var i :| 0 <= i < |sorted| && sorted[i] == l;
    page := PageOfPosition(i, limit);
    PositionInWindow(sorted, (page - 1) * limit, limit, i);
    if page > totalPages {
      PastLastPage(page, limit, totalPages, |sorted|);
    }
  }

  /** Two newest-first orders of the same leads are the same order when no two
      of the leads share a creation time. */
  lemma {:induction false} NewestFirstUnique(a: seq<Lead>, b: seq<Lead>)
    requires NewestFirst(a) && NewestFirst(b) && multiset(a) == multiset(b)
    requires DistinctCreationTimes(a)
    ensures a == b
    decreases |a|
  {
    SortedLength(a, b);
    if a != [] {
      HeadIsNewest(a, b[0]);
      HeadIsNewest(b, a[0]);
      assert a[0].createdAt == b[0].createdAt && b[0] in a;
      DropHead(a);
      DropHead(b);
      SameTails(a, b);
      NewestFirstUnique(a[1..], b[1..]);
    }
  }

  lemma SameTails(a: seq<Lead>, b: seq<Lead>)
    requires a != [] && b != [] && a[0] == b[0]
    requires multiset(a) == multiset{a[0]} + multiset(a[1..])
    requires multiset(b) == multiset{b[0]} + multiset(b[1..])
    requires multiset(a) == multiset(b)
    ensures multiset(a[1..]) == multiset(b[1..])
  {
    assert multiset(a[1..]) == multiset(a) - multiset{a[0]};
  }

  /** The head of a newest-first list is at least as new as any of its leads. */
  lemma HeadIsNewest(s: seq<Lead>, x: Lead)
    requires NewestFirst(s) && x in s
    ensures s[0].createdAt >= x.createdAt
  {
    var k :| 0 <= k < |s| && s[k] == x;
    if k > 0 {
      assert s[0].createdAt >= s[k].createdAt;
    }
  }

  /** Dropping the head keeps the order, the distinctness and the other leads. */
  lemma DropHead(s: seq<Lead>)
    requires s != [] && NewestFirst(s)
    ensures NewestFirst(s[1..])
    ensures multiset(s) == multiset{s[0]} + multiset(s[1..])
    ensures DistinctCreationTimes(s) ==> DistinctCreationTimes(s[1..])
  {
    assert s == [s[0]] + s[1..];
    assert forall x :: x in s[1..] ==> x in s;
  }

  /** Without distinct creation times a lead can be missed: two leads created
      at the same time, one per page, and the store ordering the tie one way
      for page 1 and the other way for page 2, list the same lead twice. */
  lemma TiedLeadCanBeMissed(a: Lead, b: Lead)
    requires a != b && a.createdAt == b.createdAt
    ensures NewestFirst([a, b]) && NewestFirst([b, a]) && multiset([b, a]) == multiset([a, b])
    ensures Window([a, b], 0, 1) == [a] && Window([b, a], 1, 1) == [a]
    ensures b !in Window([a, b], 0, 1) && b !in Window([b, a], 1, 1)
  {
  }

  lemma PositionInWindow(s: seq<Lead>, skip: nat, take: nat, i: nat)
    requires skip <= i < skip + take && i < |s|
    ensures s[i] in Window(s, skip, take)
  {
    assert Window(s, skip, take)[i - skip] == s[i];
  }

  /** The page that shows the element at position `i` of the ordered set. */
  function PageOfPosition(i: nat, limit: int): (page: int)
    requires limit >= 1
    ensures page >= 1
    ensures 0 <= (page - 1) * limit <= i < (page - 1) * limit + limit
  {
    assert i == (i / limit) * limit + i % limit;
    assert 0 <= i % limit <= i;
    i / limit + 1
  }

  // ---------------------------------------------------------------------------
  // Request parameters
  // ---------------------------------------------------------------------------

  /** The four list parameters as GET reads them; `None` page or limit is NaN. */
  datatype ListParams = ListParams(page: Option<int>, limit: Option<int>, status: Option<string>, query: Option<string>)

  /** `parseInt(searchParams.get(key) || fallback)`. */
  function ParseNumber(ps: Params, key: string, fallback: string): Option<int>
  {
    var v := Lookup(ps, key);
    ParseInt(if Truthy(v) then v.value else fallback)
  }

  /** The parameters GET reads: a page or limit that is absent or empty falls
      back to 1 or 10, a given one is `parseInt` of it. */
  function ParseListParams(ps: Params): (r: ListParams)
    ensures !Truthy(Lookup(ps, "page")) ==> r.page == Some(1)
    ensures Truthy(Lookup(ps, "page")) ==> r.page == ParseInt(Lookup(ps, "page").value)
    ensures !Truthy(Lookup(ps, "limit")) ==> r.limit == Some(10)
    ensures Truthy(Lookup(ps, "limit")) ==> r.limit == ParseInt(Lookup(ps, "limit").value)
    ensures r.status == Lookup(ps, "status") && r.query == Lookup(ps, "query")
  {
    ParseIntOfDefaults();
    ListParams(ParseNumber(ps, "page", "1"), ParseNumber(ps, "limit", "10"),
               Lookup(ps, "status"), Lookup(ps, "query"))
  }

  /** Page and limit parse to positive numbers. */
  predicate PagingWellFormed(p: ListParams)
  {
    p.page.Some? && p.page.value >= 1 && p.limit.Some? && p.limit.value >= 1
  }

  // ---------------------------------------------------------------------------
  // GET
  // ---------------------------------------------------------------------------

  datatype GetResponse =
    | GetUnauthorized                                            // 401
    | LeadsPage(leads: seq<Lead>, totalPages: nat, currentPage: int)  // 200
    | GetServerError                                             // 500

  /** GET /api/leads. `session` is `getServerSession`'s answer, `storeFault`
      whether the database calls throw. */
  method HandleGet(session: Option<SessionUser>, ps: Params, leads: seq<Lead>, storeFault: bool) returns (resp: GetResponse)
    requires session.Some? ==> PagingWellFormed(ParseListParams(ps))
    ensures session.None? <==> resp == GetUnauthorized
    ensures session.Some? && storeFault ==> resp == GetServerError
    ensures session.Some? && !storeFault ==>
      var p := ParseListParams(ps);
      var page := List(QueryFor(session.value, p.status, p.query), leads, p.page.value, p.limit.value);
      resp == LeadsPage(page.leads, page.totalPages, page.currentPage)
    ensures resp.LeadsPage? ==>
      forall l :: l in resp.leads ==> l in leads && Selected(session.value, Lookup(ps, "status"), Lookup(ps, "query"), l)
  {
    if session.None? {
      return GetUnauthorized;
    }
    var user := session.value;
    var p := ParseListParams(ps);
    var q := BuildQuery(user, p.status, p.query);
    if storeFault {
      return GetServerError;
    }
    var result := List(q, leads, p.page.value, p.limit.value);
    resp := LeadsPage(result.leads, result.totalPages, result.currentPage);
  }

  /** A salesperson never receives a lead that another user created. */
  lemma SalespersonSeesOnlyOwnLeads(user: SessionUser, status: Option<string>, search: Option<string>,
                                    leads: seq<Lead>, page: int, limit: int, l: Lead)
    requires user.role == Salesperson
    requires page >= 1 && limit >= 1
    requires l in List(QueryFor(user, status, search), leads, page, limit).leads
    ensures l.createdBy == user.id
  {
  }

  /** An admin's query adds no owner constraint: every stored lead that passes
      the status and search filters, whoever created it, is selected and counted
      in the total as often as it is stored. */
  lemma AdminCountsEveryMatchingLead(user: SessionUser, status: Option<string>, search: Option<string>,
                                     leads: seq<Lead>, l: Lead)
    requires user.role == Admin
    requires l in leads
    requires Truthy(status) ==> StatusName(l.status) == status.value
    requires Truthy(search) ==> SearchHit(search.value, l)
    ensures l in Filter(QueryFor(user, status, search), leads)
    ensures multiset(Filter(QueryFor(user, status, search), leads))[l] == multiset(leads)[l]
  {
  }

  /** With distinct creation times, such a lead is also listed on some page. */
  lemma AdminSeesEveryMatchingLead(user: SessionUser, status: Option<string>, search: Option<string>,
                                   leads: seq<Lead>, limit: int, l: Lead, order: int -> seq<Lead>)
    requires user.role == Admin
    requires limit >= 1
    requires l in leads
    requires Truthy(status) ==> StatusName(l.status) == status.value
    requires Truthy(search) ==> SearchHit(search.value, l)
    requires DistinctCreationTimes(Filter(QueryFor(user, status, search), leads))
    requires forall page ::
      && NewestFirst(order(page))
      && multiset(order(page)) == multiset(Filter(QueryFor(user, status, search), leads))
    ensures exists page ::
      && 1 <= page
      && l in List(QueryFor(user, status, search), leads, page, limit).leads
      && l in Window(order(page), (page - 1) * limit, limit)
  {
    ListedOnSomePage(QueryFor(user, status, search), leads, limit, l, order);
  }

  // ---------------------------------------------------------------------------
  // POST
  // ---------------------------------------------------------------------------

  /** The request body: a parsed JSON document, or text that `request.json()`
      rejects with the given message. */
  datatype Body = Parsed(doc: LeadDoc) | Malformed(message: string)

  /** What the store does with an insert that passed validation. */
  datatype StoreFault = NoFault | ErrorThrown(message: string) | ValueThrown

  datatype CreateError = InvalidFields(fields: seq<LeadField>) | ErrorMessage(message: string)

  datatype PostResponse =
    | PostUnauthorized                    // 401
    | Created(lead: Lead)                 // 201
    | BadRequest(error: CreateError)      // 400: an Error was thrown
    | PostServerError                     // 500: a non-Error value was thrown

  /** The document POST hands to `Lead.create`: the body with `createdBy`
      overwritten by the caller's id. */
  function OwnedBy(doc: LeadDoc, owner: Id): (d: LeadDoc)
    ensures d.createdBy == Some(owner)
    ensures d.(createdBy := doc.createdBy) == doc
  {
    doc.(createdBy := Some(owner))
  }

  /** POST /api/leads: the response and the lead collection afterwards. */
  function Post(session: Option<SessionUser>, body: Body, leads: seq<Lead>, newId: Id, now: int, fault: StoreFault)
    : (r: (PostResponse, seq<Lead>))
    ensures session.None? ==> r == (PostUnauthorized, leads)
    ensures r.0 == PostUnauthorized <==> session.None?
    ensures r.0.Created? ==> r.1 == leads + [r.0.lead]
    ensures !r.0.Created? ==> r.1 == leads
    ensures r.0.Created? <==>
      session.Some? && body.Parsed? && DocValid(OwnedBy(body.doc, session.value.id)) && fault == NoFault
    ensures r.0.Created? ==> Create(OwnedBy(body.doc, session.value.id), newId, now) == Success(r.0.lead)
    ensures r.0.Created? ==> r.0.lead.createdBy == session.value.id && r.0.lead.id == newId
    ensures r.0.Created? ==> StoredLeadValid(r.0.lead)
    ensures r.0 == PostServerError <==>
      session.Some? && body.Parsed? && DocValid(OwnedBy(body.doc, session.value.id)) && fault == ValueThrown
    ensures r.0.BadRequest? <==>
      session.Some? && (body.Malformed? || !DocValid(OwnedBy(body.doc, session.value.id)) || fault.ErrorThrown?)
    ensures session.Some? && body.Malformed? ==> r.0 == BadRequest(ErrorMessage(body.message))
    ensures session.Some? && body.Parsed? && !DocValid(OwnedBy(body.doc, session.value.id)) ==>
      r.0 == BadRequest(InvalidFields(ValidationErrors(OwnedBy(body.doc, session.value.id))))
    ensures session.Some? && body.Parsed? && DocValid(OwnedBy(body.doc, session.value.id)) && fault.ErrorThrown? ==>
      r.0 == BadRequest(ErrorMessage(fault.message))
  {
    if session.None? then (PostUnauthorized, leads)
    else if body.Malformed? then (BadRequest(ErrorMessage(body.message)), leads)
    else
      match Create(OwnedBy(body.doc, session.value.id), newId, now)
      case Failure(fields) => (BadRequest(InvalidFields(fields)), leads)
      case Success(lead) =>
        match fault
        case NoFault => (Created(lead), leads + [lead])
        case ErrorThrown(message) => (BadRequest(ErrorMessage(message)), leads)
        case ValueThrown => (PostServerError, leads)
  }

  /** POST keeps the collection's invariant. */
  lemma PostKeepsStoreValid(session: Option<SessionUser>, body: Body, leads: seq<Lead>, newId: Id, now: int, fault: StoreFault)
    requires StoreValid(leads)
    ensures StoreValid(Post(session, body, leads, newId, now, fault).1)
  {
  }

  /** Whatever `createdBy` the body claims, the created lead belongs to the caller. */
  lemma AuthorshipCannotBeSpoofed(user: SessionUser, doc: LeadDoc, claimed: Id, leads: seq<Lead>, newId: Id, now: int, fault: StoreFault)
    ensures var r := Post(Some(user), Parsed(doc.(createdBy := Some(claimed))), leads, newId, now, fault);
      r.0.Created? ==> r.0.lead.createdBy == user.id
    ensures Post(Some(user), Parsed(doc), leads, newId, now, fault)
         == Post(Some(user), Parsed(doc.(createdBy := Some(claimed))), leads, newId, now, fault)
  {
  }
}

=== FILE: stats_route.dfy ===
/** The admin dashboard's statistics (src/app/api/dashboard/stats/route.ts):
    only an admin is answered, with the number of all leads and the numbers of
    leads In Progress, Won and Lost. */
module StatsRoute {
  import opened Wrappers
  import opened Domain
  import opened LeadsRoute

  /** `Lead.countDocuments({ status })`. */
  function CountStatus(leads: seq<Lead>, st: Status): (n: nat)
    ensures n <= |leads|
  {
    if leads == [] then 0
    else (if leads[0].status == st then 1 else 0) + CountStatus(leads[1..], st)
  }

  datatype StatsResponse =
    | StatsForbidden                                                 // 403
    | Counts(total: nat, inProgress: nat, won: nat, lost: nat)       // 200
    | StatsServerError                                               // 500

  /** The five per-status counts add up to the number of leads. */
  lemma {:induction false} StatusCountsPartition(leads: seq<Lead>)
    ensures CountStatus(leads, New) + CountStatus(leads, Contacted) + CountStatus(leads, InProgress)
          + CountStatus(leads, Won) + CountStatus(leads, Lost) == |leads|
  {
    if leads != [] {
      StatusCountsPartition(leads[1..]);
    }
  }

  /** GET /api/dashboard/stats. `session` is `getServerSession`'s answer (none
      for an anonymous caller), `storeFault` whether the database calls throw. */
  function Stats(session: Option<SessionUser>, leads: seq<Lead>, storeFault: bool): (r: StatsResponse)
    ensures r == StatsForbidden <==> session.None? || session.value.role != Admin
    ensures r == StatsServerError <==> session.Some? && session.value.role == Admin && storeFault
    ensures r.Counts? ==>
      && r.total == |leads|
      && r.inProgress == CountStatus(leads, InProgress)
      && r.won == CountStatus(leads, Won)
      && r.lost == CountStatus(leads, Lost)
      && r.inProgress + r.won + r.lost <= r.total
  {
    if session.None? || session.value.role != Admin then StatsForbidden
    else if storeFault then StatsServerError
    else
      StatusCountsPartition(leads);
      Counts(|leads|, CountStatus(leads, InProgress), CountStatus(leads, Won), CountStatus(leads, Lost))
  }

  /** A status count is the size of the set an unscoped list request with that
      status filter selects: the dashboard's numbers agree with an admin's list. */
  lemma {:induction false} CountIsFilteredTotal(leads: seq<Lead>, st: Status)
    ensures CountStatus(leads, st) == |Filter(LeadQuery(None, Some(StatusName(st)), None), leads)|
  {
    if leads != [] {
      CountIsFilteredTotal(leads[1..], st);
      assert StatusName(leads[0].status) == StatusName(st) <==> leads[0].status == st by {
        assert ParseStatus(StatusName(st)) == Some(st);
      }
    }
  }
}

=== FILE: text.dfy ===
/** Text helpers the routes and the client rely on: the case-insensitive
    search test that the search box's `$regex` with option `i` performs, and the
    decimal printing (`String(n)`) and parsing (`parseInt`) of page numbers. */
module Text {
  import opened Wrappers

  // ---------------------------------------------------------------------------
  // Case-insensitive substring search (ASCII case folding)
  // ---------------------------------------------------------------------------

  function LowerChar(c: char): char
  {
    if 'A' <= c <= 'Z' then (c as int + 32) as char else c
  }

  function Lower(s: string): (r: string)
    ensures |r| == |s|
    ensures forall i :: 0 <= i < |s| ==> r[i] == LowerChar(s[i])
  {
    if s == [] then [] else [LowerChar(s[0])] + Lower(s[1..])
  }

  predicate IsPrefix(p: string, t: string)
  {
    |p| <= |t| && t[..|p|] == p
  }

  /** `p` occurs somewhere in `t`. */
  predicate Contains(t: string, p: string)
    decreases |t|
  {
    IsPrefix(p, t) || (|t| > 0 && Contains(t[1..], p))
  }

  /** The search test: `p` occurs in `t` when letter case is ignored. */
  predicate ContainsIgnoringCase(t: string, p: string)
  {
    Contains(Lower(t), Lower(p))
  }

  /** Folding case twice is folding it once. */
  lemma {:induction false} LowerIdempotent(s: string)
    ensures Lower(Lower(s)) == Lower(s)
  {
    if s != [] {
      LowerIdempotent(s[1..]);
    }
  }

  lemma {:induction false} PrefixLowered(p: string, t: string)
    requires IsPrefix(p, t)
    ensures IsPrefix(Lower(p), Lower(t))
  {
    assert Lower(t)[..|p|] == Lower(t[..|p|]);
  }

  /** Every exact occurrence is found by the case-insensitive search. */
  lemma {:induction false} ExactMatchIsFound(t: string, p: string)
    requires Contains(t, p)
    ensures ContainsIgnoringCase(t, p)
    decreases |t|
  {
    if IsPrefix(p, t) {
      PrefixLowered(p, t);
    } else {
      ExactMatchIsFound(t[1..], p);
      assert Lower(t)[1..] == Lower(t[1..]);
    }
  }

  /** The case of the pattern does not change what it finds: the pattern and
      its lower-case form find the same texts. */
  lemma CaseOfPatternIrrelevant(t: string, p: string)
    ensures ContainsIgnoringCase(t, Lower(p)) <==> ContainsIgnoringCase(t, p)
  {
    LowerIdempotent(p);
  }

  // ---------------------------------------------------------------------------
  // Decimal printing and parseInt
  // ---------------------------------------------------------------------------

  predicate IsDigit(c: char)
  {
    '0' <= c <= '9'
  }

  function DigitChar(d: nat): (c: char)
    requires d < 10
    ensures IsDigit(c) && DigitValue(c) == d
  {
    ('0' as int + d) as char
  }

  function DigitValue(c: char): nat
    requires IsDigit(c)
  {
    c as int - '0' as int
  }

  /** The decimal digits of `n`, most significant first, without leading zeros. */
  function NatToString(n: nat): (r: string)
    ensures |r| >= 1
    ensures forall i :: 0 <= i < |r| ==> IsDigit(r[i])
  {
    if n < 10 then [DigitChar(n)] else NatToString(n / 10) + [DigitChar(n % 10)]
  }

  /** `String(n)` for an integer `n`. */
  function IntToString(n: int): string
  {
    if n < 0 then "-" + NatToString(-n) else NatToString(n)
  }

  /** Length of the run of digits at the start of `s`. */
  function LeadingDigits(s: string): (k: nat)
    ensures k <= |s|
    ensures forall i :: 0 <= i < k ==> IsDigit(s[i])
    ensures k < |s| ==> !IsDigit(s[k])
  {
    if s != [] && IsDigit(s[0]) then 1 + LeadingDigits(s[1..]) else 0
  }

  /** The value of a string of decimal digits. */
  function DigitsValue(s: string): nat
    requires forall i :: 0 <= i < |s| ==> IsDigit(s[i])
  {
    if s == [] then 0 else 10 * DigitsValue(s[..|s| - 1]) + DigitValue(s[|s| - 1])
  }

  /** `parseInt(s)` in base 10: an optional sign, then the longest run of digits;
      `None` stands for NaN, when no digit follows the sign. */
  function ParseInt(s: string): (r: Option<int>)
  {
    var negative := |s| > 0 && s[0] == '-';
    var rest := if |s| > 0 && (s[0] == '-' || s[0] == '+') then s[1..] else s;
    var k := LeadingDigits(rest);
    if k == 0 then None
    else
      var v: int := DigitsValue(rest[..k]);
      Some(if negative then -v else v)
  }

  lemma {:induction false} DigitsOfNat(n: nat)
    ensures DigitsValue(NatToString(n)) == n
    ensures LeadingDigits(NatToString(n)) == |NatToString(n)|
  {
    var s := NatToString(n);
    AllDigitsRun(s);
    if n >= 10 {
      DigitsOfNat(n / 10);
      assert s[..|s| - 1] == NatToString(n / 10);
    }
  }

  lemma {:induction false} AllDigitsRun(s: string)
    requires forall i :: 0 <= i < |s| ==> IsDigit(s[i])
    ensures LeadingDigits(s) == |s|
  {
    if s != [] {
      AllDigitsRun(s[1..]);
    }
  }

  /** Round trip: parseInt reads back every integer that String wrote. */
  lemma ParseIntOfIntToString(n: int)
    ensures ParseInt(IntToString(n)) == Some(n)
  {
    if n < 0 {
      var digits := NatToString(-n);
      DigitsOfNat(-n);
      assert IntToString(n)[1..] == digits;
      assert digits[..|digits|] == digits;
    } else {
      DigitsOfNat(n);
      assert IntToString(n)[..|IntToString(n)|] == IntToString(n);
    }
  }

  /** The two fallback strings of the list route read as 1 and 10. */
  lemma ParseIntOfDefaults()
    ensures ParseInt("1") == Some(1) && ParseInt("10") == Some(10)
  {
    assert IntToString(1) == "1";
    assert IntToString(10) == "10";
    ParseIntOfIntToString(1);
    ParseIntOfIntToString(10);
  }
}

=== FILE: url_params.dfy ===
/** URL query parameters (`URLSearchParams`) as an ordered list of key/value
    pairs. The client builds one in place with `append`; the server reads one
    with `get`, which gives the first value stored under a key or null. */
module UrlParams {
  import opened Wrappers

  type Params = seq<(string, string)>

  /** `searchParams.get(key)`: the value of the first pair with that key. */
  function Lookup(ps: Params, key: string): (r: Option<string>)
    ensures r.None? <==> forall i :: 0 <= i < |ps| ==> ps[i].0 != key
    ensures r.Some? ==> exists i :: 0 <= i < |ps| && ps[i] == (key, r.value) && forall j :: 0 <= j < i ==> ps[j].0 != key
  {
    if ps == [] then None
    else if ps[0].0 == key then Some(ps[0].1)
    else
      var r := Lookup(ps[1..], key);
      assert forall i :: 0 <= i < |ps[1..]| ==> ps[1..][i] == ps[i + 1];
      if r.Some? then
        var i :| 0 <= i < |ps[1..]| && ps[1..][i] == (key, r.value) && forall j :: 0 <= j < i ==> ps[1..][j].0 != key;
        assert ps[i + 1] == (key, r.value) && forall j :: 0 <= j < i + 1 ==> ps[j].0 != key;
        r
      else r
  }

  /** A `URLSearchParams` object that the client fills in place. */
  class SearchParams {
    var entries: Params

    /** `new URLSearchParams({ page, limit })`: the two initial pairs, in order. */
    constructor (page: string, limit: string)
      ensures entries == [("page", page), ("limit", limit)]
    {
      entries := [("page", page), ("limit", limit)];
    }

    /** `params.append(key, value)`: adds one pair at the end. */
    method Append(key: string, value: string)
      modifies this
      ensures entries == old(entries) + [(key, value)]
    {
      entries := entries + [(key, value)];
    }
  }
}

=== FILE: user_model.dfy ===
/** The user schema (src/models/User.ts): required fields, the role enum with
    its default, the unique index on email, and the password that queries leave
    out unless they ask for it. */
module UserModel {
  import opened Wrappers
  import opened Domain

  /** A persisted user; `password` holds the bcrypt hash. */
  datatype StoredUser = StoredUser(id: Id, fullName: string, email: string, password: string, role: Role)

  /** A user document as handed to the store: every field may be absent. */
  datatype UserDoc = UserDoc(fullName: Option<string>, email: Option<string>, password: Option<string>, role: Option<string>)

  datatype UserField = UserFullName | UserEmail | UserPassword | UserRole

  datatype UserError = UserInvalid(fields: seq<UserField>) | DuplicateEmail

  /** A user as a query returns it: the password only when it was selected. */
  datatype UserView = UserView(id: Id, fullName: string, email: string, password: Option<string>, role: Role)

  predicate UserFieldInvalid(doc: UserDoc, f: UserField)
  {
    match f
    case UserFullName => !Truthy(doc.fullName)
    case UserEmail => !Truthy(doc.email)
    case UserPassword => !Truthy(doc.password)
    case UserRole => doc.role.Some? && ParseRole(doc.role.value).None?
  }

  function UserErrors(doc: UserDoc): (errs: seq<UserField>)
    ensures forall f :: f in errs <==> UserFieldInvalid(doc, f)
  {
    (if UserFieldInvalid(doc, UserFullName) then [UserFullName] else [])
    + (if UserFieldInvalid(doc, UserEmail) then [UserEmail] else [])
    + (if UserFieldInvalid(doc, UserPassword) then [UserPassword] else [])
    + (if UserFieldInvalid(doc, UserRole) then [UserRole] else [])
  }

  /** The unique index on email: no two users share one. */
  predicate UniqueEmails(users: seq<StoredUser>)
  {
    forall i, j :: 0 <= i < j < |users| ==> users[i].email != users[j].email
  }

  predicate EmailTaken(users: seq<StoredUser>, email: string)
  {
    exists u :: u in users && u.email == email
  }

  /** Inserting a user: schema validation first, then the unique index. A user
      without a role becomes a salesperson. */
  function InsertUser(users: seq<StoredUser>, doc: UserDoc, id: Id): (r: Result<seq<StoredUser>, UserError>)
    ensures r.Failure? && r.error.UserInvalid? <==> exists f :: UserFieldInvalid(doc, f)
    ensures r.Failure? && r.error.UserInvalid? ==> forall f :: f in r.error.fields <==> UserFieldInvalid(doc, f)
    ensures r.Failure? && r.error.DuplicateEmail? ==> EmailTaken(users, doc.email.value)
    ensures r.Success? ==> !EmailTaken(users, doc.email.value)
    ensures r.Success? ==>
      && |r.value| == |users| + 1
      && r.value[..|users|] == users
      && r.value[|users|] == StoredUser(id, doc.fullName.value, doc.email.value, doc.password.value,
                                        if doc.role.None? then Salesperson else ParseRole(doc.role.value).value)
      && r.value[|users|].fullName != "" && r.value[|users|].email != "" && r.value[|users|].password != ""
    ensures r.Success? && UniqueEmails(users) ==> UniqueEmails(r.value)
  {
    var errs := UserErrors(doc);
    if errs != [] then
      assert errs[0] in errs;
      Failure(UserInvalid(errs))
    else
      assert UserFullName !in errs && UserEmail !in errs && UserPassword !in errs && UserRole !in errs;
      if EmailTaken(users, doc.email.value) then Failure(DuplicateEmail)
      else
        var role := if doc.role.None? then Salesperson else ParseRole(doc.role.value).value;
        var u := StoredUser(id, doc.fullName.value, doc.email.value, doc.password.value, role);
        var r := users + [u];
        assert forall i :: 0 <= i < |users| ==> r[i] in users;
        Success(r)
  }

  /** `User.findOne({ email })`, with `.select('+password')` when
      `selectPassword` holds: the first user with that email, if any. */
  function FindByEmail(users: seq<StoredUser>, email: string, selectPassword: bool): (r: Option<UserView>)
    ensures r.Some? <==> EmailTaken(users, email)
    ensures r.Some? ==> exists u :: u in users && u.email == email && r.value == ViewOf(u, selectPassword)
  {
    if users == [] then None
    else if users[0].email == email then Some(ViewOf(users[0], selectPassword))
    else
      assert forall u :: u in users[1..] ==> u in users;
      assert forall u :: u in users && u != users[0] ==> u in users[1..];
      FindByEmail(users[1..], email, selectPassword)
  }

  /** How a query shows a user: the password field is hidden by default. */
  function ViewOf(u: StoredUser, selectPassword: bool): (v: UserView)
    ensures v.password.Some? <==> selectPassword
    ensures v.password.Some? ==> v.password.value == u.password
  {
    UserView(u.id, u.fullName, u.email, if selectPassword then Some(u.password) else None, u.role)
  }

  /** With the unique index in force, the user found for an email is the one
      user who has it. */
  lemma {:induction false} FindByEmailIsTheOwner(users: seq<StoredUser>, u: StoredUser, selectPassword: bool)
    requires UniqueEmails(users)
    requires u in users
    ensures FindByEmail(users, u.email, selectPassword) == Some(ViewOf(u, selectPassword))
  {
    if users[0] != u {
      assert users[0].email != u.email by {
        var k :| 0 <= k < |users| && users[k] == u;
        assert k > 0;
      }
      assert UniqueEmails(users[1..]) by {
        forall i, j | 0 <= i < j < |users[1..]|
          ensures users[1..][i].email != users[1..][j].email
        {
          assert users[1..][i] == users[i + 1] && users[1..][j] == users[j + 1];
        }
      }
      FindByEmailIsTheOwner(users[1..], u, selectPassword);
    }
  }
}

=== FILE: wrappers.dfy ===
/** Optional values and success-or-failure results, used for the source's
    `undefined`/`null` values and for its thrown errors. */
module Wrappers {

  datatype Option<+T> = None | Some(value: T)

  datatype Result<+T, +E> = Success(value: T) | Failure(error: E)
}
